=== FILE: README.md ===
# Mathdle core in Dafny

Mathdle is a Wordle-style number game. The player guesses a hidden
four-digit answer. Each position of a guess is marked as one of:

- right digit, right place (`1`, here `Exact`);
- right digit, wrong place (`2`, `Present`);
- wrong digit (`3`, `Absent`).

Under Easy and Hard no digit may repeat, in the answer or in a guess. The
game has three modes: Daily, Single Player and Multiplayer. In Multiplayer,
player 1 types the answer and player 2 guesses it.

This project models the game logic of the `Game` component
(`src/core/game.tsx`) and the `SliderInput` option stepper
(`src/core/ui.tsx`).

- `Common` (common.dfy): digits, four-digit codes, `Option`, and `IndexOf`, which models `Array.prototype.indexOf`.
- `Scoring` (scoring.dfy): covers `markGuess`.
  - `Score` is a reference definition of the mark, stated by counting alone.
  - `MarkGuess` is the source's two-pass algorithm over a copy of the answer whose slots get consumed.
  - `MarkGuess` is proved to equal `Score`.
  - `Score` is proved to be exact Mastermind scoring: the digits it credits form the multiset intersection of guess and answer.
- `GuessBuffer` (buffer.dfy): the four-cell input buffer (`currentGuess`).
  - The source stores -1 for the cursor, -2 for an empty cell and 0-9 for a digit. Here these are a tagged `Cell`.
  - A well-formed buffer is fully described by its entered digits.
  - Writing a digit pushes it onto those digits; Backspace pops the last one.
- `Session` (session.dfy): the component state, plus `handleKeyPress` and `reset`, as pure `Session -> Session` functions.
  - `Valid` collects the invariants of every reachable session.
  - `Reset` establishes `Valid`, and `HandleKeyValid` shows every key preserves it.
  - One lemma per branch of the digit, Backspace and Enter keys states what that branch does. `HandleKey`'s own contract says which handler each key reaches: only Enter changes anything beyond the buffer and the message, and any other key only clears the message.
- `Generate` (generate.dfy): the Daily seed formula, and the Easy/Hard loop that redraws repeated digits. The random digit source is given as a stream of digits.
- `Slider` (slider.dfy): `next` and `prev` of `SliderInput`. JavaScript's `undefined` is `None`.

Where the intended behaviour and the code differ, the model follows the code:

- A won game is not frozen. Keys are still handled and further guesses are still recorded; the won flag just never goes back to false (`Session.WonStaysWon`).
- In Multiplayer, once player 1 has set the answer, player 2's guesses are marked automatically by `markGuess`. No human does the marking.
- Streaks, statistics and human marking in Multiplayer are only to-dos in the code. A timer and a Daily replay lockout do not appear in it at all. None of these is modelled.

## Model

| member | source | states |
|---|---|---|
| Common.IndexOf | src/core/game.tsx:150 | the result is the first position holding the value, or -1 exactly when the value is absent |
| Scoring.Score | src/core/game.tsx:184-200 | a mark has one entry per guess position, and an entry is Exact exactly when guess and answer agree at that position |
| Scoring.ScoreCredits | src/core/game.tsx:184-213 | the guess digits marked Exact or Present form, as a multiset, the intersection of the guess's and the answer's digits: no digit is credited more often than the answer holds it, and no available match is missed |
| Scoring.NoOverCount | src/core/game.tsx:203-207 | for every digit, the guess positions holding it that are marked Exact or Present are at most as many as its occurrences in the answer |
| Scoring.WinIffAnswer | src/core/game.tsx:104-107 | a mark is all Exact exactly when the guess is the answer |
| Scoring.ScoreExamples | src/core/game.tsx:180-213 | worked examples: the reversal [4,3,2,1] of [1,2,3,4] is all Present; [1,1,1,1] against [1,1,2,3] is Exact, Exact, Absent, Absent, since the guess's 1s beyond the answer's two are Absent; an answer guessed exactly is all Exact |
| Scoring.FindFree | src/core/game.tsx:203-209 | the inner scan returns the first unconsumed answer slot holding the digit, or -1 when there is none |
| Scoring.FirstPass | src/core/game.tsx:188-196 | after pass 1, exact matches are marked and their answer slots consumed; every other position is Absent and its slot still free |
| Scoring.SecondPassStep | src/core/game.tsx:199-209 | one pass-2 iteration keeps the consumption invariant: the slots consumed are those of exact matches plus, per digit, the leftmost slots handed to earlier positions, and the marks before the position are final |
| Scoring.SecondPass | src/core/game.tsx:198-210 | pass 2 ends with the reference mark `Score` |
| Scoring.MarkGuess | src/core/game.tsx:180-213 | the two-pass algorithm computes exactly the reference mark, so it inherits the length, exactness, intersection and win properties |
| GuessBuffer.Entered | src/core/game.tsx:145-176 | the entered digits are the run of filled cells at the front, and the cell after them is not filled |
| GuessBuffer.EnteredRender | src/core/game.tsx:164-175 | reading back a buffer drawn from k digits gives those k digits |
| GuessBuffer.WellFormedIffRendered | src/core/game.tsx:33 | a buffer is well-formed exactly when it is "k digits, then the cursor, then empty cells" or "four digits" |
| GuessBuffer.CursorAfterDigits | src/core/game.tsx:150-154 | in a well-formed buffer the cursor sits right after the entered digits, and there is no cursor exactly when four digits are entered |
| GuessBuffer.InitialEmpty | src/core/game.tsx:272 | the reset buffer is well-formed and holds no digit |
| GuessBuffer.FilledIffEntered | src/core/game.tsx:158 | a digit occurs in a well-formed buffer exactly when it is among the entered digits |
| GuessBuffer.Write | src/core/game.tsx:164-175 | writing a digit where the cursor is keeps the buffer well-formed and appends the digit to the entered digits |
| GuessBuffer.Erase | src/core/game.tsx:119-136 | Backspace keeps the buffer well-formed, leaves an empty buffer unchanged, and otherwise removes exactly the last entered digit |
| GuessBuffer.EraseUndoesWrite | src/core/game.tsx:119-175 | Backspace right after writing a digit restores the buffer |
| Session.Reset | src/core/game.tsx:269-282 | a reset session satisfies the invariants and has the given mode, difficulty and answer, no history, the initial buffer, and is not won. In Multiplayer answer-setting is re-armed with player 1's prompt. In the other modes the answer-set flag is kept and the message cleared |
| Session.PressDigit | src/core/game.tsx:145-176 | a digit key changes only the buffer and the message; on a well-formed buffer the buffer stays well-formed and is either unchanged or has the digit appended to its entered digits |
| Session.PressBackspace | src/core/game.tsx:117-138 | Backspace changes only the buffer and clears the message; the buffer stays well-formed and loses its last entered digit, if any |
| Session.PressEnter | src/core/game.tsx:75-111 | Enter keeps mode and difficulty and leaves a well-formed buffer. The history is unchanged, or gains exactly the record of the full entered guess with its mark. The answer changes only when player 1 sets it in Multiplayer. A won session stays won |
| Session.HandleKey | src/core/game.tsx:70-178 | any key keeps mode and difficulty and a well-formed buffer, records at most the one full entered guess with its mark, and never un-wins a session. A key other than Enter changes only the buffer and the message. A key the game does not handle, or Enter on a guess shorter than four digits, only clears the message |
| Session.DigitOnFullIgnored | src/core/game.tsx:150-154 | a digit on a full buffer changes nothing but the message |
| Session.RepeatedDigitRefused | src/core/game.tsx:156-162 | under Easy and Hard a digit already entered is refused and the session is unchanged but for the message |
| Session.DigitAppended | src/core/game.tsx:164-175 | an accepted digit is appended to the entered digits, nothing else but the message changes, and "press Enter" is shown exactly when the buffer became full |
| Session.BackspaceOnEmpty | src/core/game.tsx:121-122 | Backspace on an empty buffer changes nothing but the message |
| Session.BackspaceDropsLast | src/core/game.tsx:124-135 | Backspace removes the last entered digit and changes nothing else but the message |
| Session.BackspaceUndoesDigit | src/core/game.tsx:119-175 | Backspace right after an accepted digit restores the session but for the message |
| Session.EnterNotFull | src/core/game.tsx:80-81 | Enter on a buffer that is not full changes nothing but the message |
| Session.MultiplayerSetsAnswer | src/core/game.tsx:83-89 | in Multiplayer, the first full Enter after a reset makes the entered digits the answer, records nothing, clears the buffer and prompts player 2 |
| Session.RepeatedGuessRefused | src/core/game.tsx:91-95 | a guess equal to a recorded one is refused; only the message changes |
| Session.NewGuessRecorded | src/core/game.tsx:72-110 | a new full guess appends exactly one record, holding the guess and its mark. It clears the buffer and the message. The session is won afterwards exactly when it was won before or the guess is the answer. Nothing else changes |
| Session.SubmittingAnswerWins | src/core/game.tsx:91-107 | submitting the answer always leaves the session won, whether or not it was guessed before |
| Session.WonStaysWon | src/core/game.tsx:70-178 | no key clears the won flag |
| Session.PressDigitValid | src/core/game.tsx:145-176 | a digit key preserves the session invariants |
| Session.PressBackspaceValid | src/core/game.tsx:117-138 | Backspace preserves the session invariants |
| Session.PressEnterValid | src/core/game.tsx:75-111 | Enter preserves the session invariants |
| Session.HandleKeyValid | src/core/game.tsx:70-178 | every key preserves the invariants. The buffer stays well-formed and, under Easy and Hard, its digits distinct. Each distinct guess is recorded once with its `markGuess` mark. The game is won exactly when the answer has been recorded as a guess |
| Generate.DailySeed | src/core/game.tsx:224-229 | for a valid month and day the date is recoverable from the seed: the year is the seed divided by 56700, and month*100 + day the remainder |
| Generate.DailySeedIncreasing | src/core/game.tsx:224-229 | a later UTC date gets a larger Daily seed |
| Generate.DailySeedUnique | src/core/game.tsx:224-229 | two valid dates (month 1-12, day 1-31) have the same Daily seed exactly when they are the same date |
| Generate.Redraw | src/core/game.tsx:259-261 | a digit that does not occur earlier is left as it is, with no draw taken. Otherwise the position gets the first draw that does not occur earlier, every draw skipped before it repeats an earlier digit, and no other position changes. None means every remaining draw repeated an earlier digit |
| Generate.DedupStep | src/core/game.tsx:258-262 | one outer iteration extends the distinct prefix by one position, keeps every digit that did not repeat an earlier one, and gives the position the first fresh draw. None only when every remaining draw repeats an earlier digit. Every draw taken after the first four is a digit of the prefix built so far, so a run that gives up at position i leaves the rest of the stream within those i digits |
| Generate.FromStreamStep | src/core/game.tsx:258-262 | after one outer iteration of the de-dup loop, each position done so far still holds its own draw or a later draw taken so far |
| Generate.RandomAnswer | src/core/game.tsx:251-263 | the answer is the first four digits drawn, taking four draws, unless they must be distinct and are not. Under Easy and Hard a finished answer has distinct digits. A digit not repeating an earlier one is kept as drawn. Every digit of the answer is its own draw or a later draw among those taken, so a repeated first draw is replaced by a digit from the stream. None only when the stream is too short for an answer, or, under Easy and Hard, the draws after the first four show fewer than four different digits. So four or more pairwise different later draws always give an answer |
| Common.IndexOfFirst | src/core/game.tsx:259 | `answer.indexOf(answer[i]) !== i` holds exactly when `answer[i]` occurs before position i |
| Slider.Next | src/core/ui.tsx:42-52 | with options present the result is an option; a value that is not an option steps to the first option; no options give `undefined` |
| Slider.Prev | src/core/ui.tsx:54-64 | for a value among the options the result is an option; for any other value the result is `undefined` |
| Slider.NextCycles | src/core/ui.tsx:42-51 | with distinct options, `next` moves from position k to position (k + 1) mod n, so the last option wraps to the first |
| Slider.PrevCycles | src/core/ui.tsx:54-63 | with distinct options, `prev` moves from position k to position (k - 1) mod n, so the first option wraps to the last |
| Slider.PrevAfterNext | src/core/ui.tsx:42-63 | with distinct options, `prev` undoes `next` |
| Slider.NextAfterPrev | src/core/ui.tsx:42-63 | with distinct options, `next` undoes `prev` |
| Slider.DifficultyCycle | src/core/ui.tsx:100-105 | the difficulty selector cycles Easy, Medium, Hard, Extreme and back to Easy, and steps back from Easy to Extreme |

## Left out

- React state hooks, effect registration, DOM theming and scroll-into-view (src/core/game.tsx:41-68): these are host plumbing. The setter updates are modelled as one atomic transition per key. In the source the `setCurrentGuess` updater itself calls `setGuesses` and `setHasWon` (src/core/game.tsx:77-111). The example host mounts the app with `ReactDOM.render`, and the version of React is not pinned. Under React 17's legacy mode a re-run of that updater would record a guess twice; under React 18 it would not. The model assumes each updater runs once.
- `getSeededRandom` and `Math.random` (src/core/game.tsx:219-222, 236, 253, 260): these are floating-point or nondeterministic. The random digits become a parameter of `Generate.RandomAnswer`.
- Generate.RandomAnswer: returns None when the given stream of digits runs out, where the source would keep drawing and could in principle loop forever. Its contract bounds when that can happen: the draws after the first four show fewer than four different digits.
- The Daily answer (src/core/game.tsx:233-249): its digits come from `Math.sin`. Its de-duplication loop's `attempts < 100` bound is checked only by the outer loop, while the inner `while` is unbounded, so it guarantees neither distinct digits nor termination. Only the seed formula is modelled.
- Rendering and the mark colours: these are presentation.
- The in-place `guess.mark.sort()` at src/core/game.tsx:323: under Hard and Extreme, rendering sorts each stored `Guess.mark` array in place. After a render the source's history holds the sorted marks, no longer the position-by-position `markGuess` marks. The model keeps the marks as recorded, before rendering sorts them. So `Session.HistoryValid` and `Session.HandleKeyValid`'s "each record has its `markGuess` mark" describe the marks before the first render.
- Message texts: each is a `Message` constructor, not a string.
- Key names: `parseInt(e.key)` on key names is not modelled. A key is already one of a digit, Backspace, Enter or another key.
- Session.HandleKey, Session.PressEnter: require a well-formed buffer. Every buffer reachable from `Reset` is well-formed (`Session.HandleKeyValid`), so no reachable input is excluded.
- Scoring.MarkGuess: requires the guess and the answer to have the same length. Every guess and answer of the game has four digits.
- The duplicate-guess test `guess.join("") === newGuess.join("")`: it is modelled as sequence equality. The two agree because every entry is a single digit.
- Streaks, statistics and human marking in Multiplayer: these are to-dos at src/core/game.tsx:6-10, so there is no code to model. A timer and a Daily replay lockout do not exist anywhere in the code.
- The settings popup, `src/index.tsx` (configuration merge, mode buttons, mobile detection) and `example/index.tsx` (DOM mounting): these are UI glue and are not part of this model.

=== FILE: buffer.dfy ===
/** The four-cell guess buffer of src/core/game.tsx (`currentGuess`).

    The source stores -1 for the cursor, -2 for an empty cell and 0-9 for a
    digit; here the three kinds are a tagged cell.  A well-formed buffer
    shows the digits entered so far, then the cursor, then empty cells (or
    just four digits), so it is fully described by its digit prefix: the
    edit operations below are proved to act on that prefix like a stack of
    at most four digits. */
module GuessBuffer {
  import opened Common

  datatype Cell = Empty | Cursor | Filled(d: Digit)

  type Buffer = b: seq<Cell> | |b| == CodeLength witness [Cursor, Empty, Empty, Empty]

  /** The buffer after a reset or a submission: cursor first, rest empty. */
  const Initial: Buffer := [Cursor, Empty, Empty, Empty]

  /** `currentGuess.indexOf(-1)`: where the cursor is, or -1 when there is none. */
  function CursorIndex(b: Buffer): int {
    IndexOf(b, Cursor)
  }

  /** The buffer showing the digits ds, followed by the cursor when there is room. */
  function Render(ds: seq<Digit>): Buffer
    requires |ds| <= CodeLength
  {
    seq(CodeLength, i requires 0 <= i < CodeLength =>
      if i < |ds| then Filled(ds[i]) else if i == |ds| then Cursor else Empty)
  }

  /** The digits entered so far: the longest run of filled cells at the front. */
  function Entered(b: seq<Cell>): (ds: seq<Digit>)
    ensures |ds| <= |b|
    ensures forall i :: 0 <= i < |ds| ==> b[i] == Filled(ds[i])
    ensures |ds| < |b| ==> !b[|ds|].Filled?
  {
    if |b| == 0 || !b[0].Filled? then [] else [b[0].d] + Entered(b[1..])
  }

  /** The shape every buffer of a session has: k digits, then the cursor,
      then empty cells; or four digits. */
  predicate WellFormed(b: Buffer) {
    b == Render(Entered(b))
  }

  /** Reading back a rendered buffer gives the digits it was rendered from. */
  lemma EnteredRender(ds: seq<Digit>)
    requires |ds| <= CodeLength
    ensures Entered(Render(ds)) == ds
  {
    var b, es := Render(ds), Entered(Render(ds));
    assert forall k :: 0 <= k < |ds| ==> b[k] == Filled(ds[k]);
    assert |ds| < CodeLength ==> b[|ds|] == Cursor;
    assert |es| == |ds|;
    assert forall i :: 0 <= i < |ds| ==> b[i] == Filled(es[i]);
  }

  /** Well-formed buffers are exactly the rendered ones. */
  lemma WellFormedIffRendered(b: Buffer)
    ensures WellFormed(b) <==> exists ds: seq<Digit> :: |ds| <= CodeLength && b == Render(ds)
  {
    if ds: seq<Digit> :| |ds| <= CodeLength && b == Render(ds) {
      EnteredRender(ds);
    }
  }

  /** On a well-formed buffer the cursor sits right after the entered
      digits, and there is no cursor exactly when all four are entered. */
  lemma CursorAfterDigits(b: Buffer)
    requires WellFormed(b)
    ensures |Entered(b)| < CodeLength ==> CursorIndex(b) == |Entered(b)|
    ensures CursorIndex(b) == -1 <==> |Entered(b)| == CodeLength
  {
    var ds := Entered(b);
    if |ds| < CodeLength {
      assert b[|ds|] == Cursor;
      assert Cursor !in b[..|ds|];
    } else {
      assert forall i :: 0 <= i < CodeLength ==> b[i] != Cursor;
    }
  }

  /** The initial buffer is well-formed and holds no digit. */
  lemma InitialEmpty()
    ensures WellFormed(Initial) && Entered(Initial) == []
  {
    assert Initial == Render([]);
    EnteredRender([]);
  }

  /** A digit key on a buffer that still has a cursor: the digit replaces the
      cursor, which moves one cell right unless the digit filled the last cell. */
  function Write(b: Buffer, d: Digit): (r: Buffer)
    requires CursorIndex(b) != -1
    ensures WellFormed(b) ==> WellFormed(r) && Entered(r) == Entered(b) + [d]
  {
    var i := CursorIndex(b);
    var r: Buffer := if i == CodeLength - 1 then b[i := Filled(d)] else b[i := Filled(d)][i + 1 := Cursor];
    if WellFormed(b) then
      CursorAfterDigits(b);
      var ds := Entered(b) + [d];
      assert r == Render(ds);
      EnteredRender(ds);
      r
    else
      r
  }

  /** Backspace: nothing happens when the cursor is in the first cell;
      on a full buffer the last digit becomes the cursor; otherwise the digit
      before the cursor becomes the cursor and the old cursor cell is emptied. */
  function Erase(b: Buffer): (r: Buffer)
    ensures WellFormed(b) ==> WellFormed(r)
    ensures WellFormed(b) && |Entered(b)| == 0 ==> r == b
    ensures WellFormed(b) && |Entered(b)| > 0 ==> Entered(r) == Entered(b)[..|Entered(b)| - 1]
  {
    var i := CursorIndex(b);
    var r: Buffer :=
      if i == 0 then b
      else if i == -1 then b[CodeLength - 1 := Cursor]
      else b[i - 1 := Cursor][i := Empty];
    if WellFormed(b) && |Entered(b)| > 0 then
      CursorAfterDigits(b);
      var ds := Entered(b)[..|Entered(b)| - 1];
      assert r == Render(ds);
      EnteredRender(ds);
      r
    else
      if WellFormed(b) then CursorAfterDigits(b); r else r
  }

  /** On a well-formed buffer, `currentGuess.indexOf(d) !== -1` asks whether
      d is among the entered digits. */
  lemma FilledIffEntered(b: Buffer, d: Digit)
    requires WellFormed(b)
    ensures Filled(d) in b <==> d in Entered(b)
  {
    var ds := Entered(b);
    if Filled(d) in b {
      var k :| 0 <= k < |b| && b[k] == Filled(d);
      assert k < |ds|;
      assert ds[k] == d;
    }
    if d in ds {
      var k :| 0 <= k < |ds| && ds[k] == d;
      assert b[k] == Filled(d);
    }
  }

  /** Backspace right after an accepted digit restores the buffer. */
  lemma EraseUndoesWrite(b: Buffer, d: Digit)
    requires WellFormed(b) && CursorIndex(b) != -1
    ensures Erase(Write(b, d)) == b
  {
    var r := Write(b, d);
    assert Entered(r)[..|Entered(r)| - 1] == Entered(b);
  }
}

=== FILE: common.dfy ===
/** Shared vocabulary of the game core: digits, four-digit codes, an optional
    value, and the array helpers the source leans on (`indexOf`). */
module Common {

  /** A single puzzle digit. */
  type Digit = d: int | 0 <= d <= 9

  /** Answers, guesses and marks all have this many positions. */
  const CodeLength: nat := 4

  /** A complete answer or guess: exactly four digits. */
  type Code = s: seq<Digit> | |s| == CodeLength witness [0, 0, 0, 0]

  /** The play modes (`GameMode`). */
  datatype Mode = Daily | SinglePlayer | Multiplayer

  /** The difficulty tiers (`GameDifficulty`). */
  datatype Difficulty = Easy | Medium | Hard | Extreme

  /** Easy and Hard use answers and guesses without a repeated digit. */
  predicate UniqueDigits(d: Difficulty) {
    d == Easy || d == Hard
  }

  /** A value that may be missing; `None` stands where JavaScript yields `undefined`. */
  datatype Option<T> = None | Some(value: T)

  /** No value occurs twice in `s`. */
  predicate Distinct<T(==)>(s: seq<T>) {
    forall i, j :: 0 <= i < j < |s| ==> s[i] != s[j]
  }

  /** `Array.prototype.indexOf`: the first position holding `x`, or -1. */
  function IndexOf<T(==)>(s: seq<T>, x: T): (r: int)
    ensures -1 <= r < |s|
    ensures r == -1 <==> x !in s
    ensures 0 <= r ==> s[r] == x && x !in s[..r]
  {
    if |s| == 0 then -1
    else if s[0] == x then 0
    else
      var k := IndexOf(s[1..], x);
      if k == -1 then -1
      else
        assert s[..k + 1] == [s[0]] + s[1..][..k];
        k + 1
  }

  /** In a sequence without repeats, the first occurrence of `s[k]` is `k`. */
  lemma IndexOfDistinct<T>(s: seq<T>, k: int)
    requires Distinct(s)
    requires 0 <= k < |s|
    ensures IndexOf(s, s[k]) == k
  {
  }

  /** `s.indexOf(s[k]) === k` asks whether `s[k]` does not occur before `k`. */
  lemma IndexOfFirst<T>(s: seq<T>, k: int)
    requires 0 <= k < |s|
    ensures IndexOf(s, s[k]) == k <==> s[k] !in s[..k]
  {
    var r := IndexOf(s, s[k]);
    if r < k {
      assert s[..k][r] == s[k];
    }
  }
}

=== FILE: generate.dfy ===
/** Answer generation (`generateAnswer` in src/core/game.tsx).

    The floating-point sources of digits (`Math.sin` for the Daily answer,
    `Math.random` otherwise) are not modelled; the random digits are a
    given stream instead.  What is modelled is the integer Daily seed and the
    Easy/Hard loop that redraws repeated digits. */
module Generate {
  import opened Common

  /** `getDailySeed` for a UTC calendar date.  For a valid month and day
      the date can be read back from the seed: the year is the quotient by
      56700 and `month * 100 + day` the remainder. */
  function DailySeed(year: int, month: int, day: int): (seed: int)
    ensures ValidDay(month, day) ==> seed / 56700 == year && seed % 56700 == month * 100 + day
  {
    year * 56700 + month * 100 + day
  }

  /** The month and day a UTC date can have (month counted from 1). */
  predicate ValidDay(month: int, day: int) {
    1 <= month <= 12 && 1 <= day <= 31
  }

  /** Calendar order on (year, month, day). */
  predicate Before(y1: int, m1: int, d1: int, y2: int, m2: int, d2: int) {
    y1 < y2 || (y1 == y2 && (m1 < m2 || (m1 == m2 && d1 < d2)))
  }

  /** Later dates get larger seeds: a year step (56700) outweighs any
      month-and-day difference (at most 1231 - 101). */
  lemma DailySeedIncreasing(y1: int, m1: int, d1: int, y2: int, m2: int, d2: int)
    requires ValidDay(m1, d1) && ValidDay(m2, d2)
    requires Before(y1, m1, d1, y2, m2, d2)
    ensures DailySeed(y1, m1, d1) < DailySeed(y2, m2, d2)
  {
  }

  /** The seed is unique per day, as its comment promises. */
  lemma DailySeedUnique(y1: int, m1: int, d1: int, y2: int, m2: int, d2: int)
    requires ValidDay(m1, d1) && ValidDay(m2, d2)
    ensures DailySeed(y1, m1, d1) == DailySeed(y2, m2, d2) <==> (y1 == y2 && m1 == m2 && d1 == d2)
  {
    if Before(y1, m1, d1, y2, m2, d2) {
      DailySeedIncreasing(y1, m1, d1, y2, m2, d2);
    } else if Before(y2, m2, d2, y1, m1, d1) {
      DailySeedIncreasing(y2, m2, d2, y1, m1, d1);
    }
  }

  /** Every draw at a position in [from, to) repeats a digit of `seen`. */
  predicate Rejected(draws: seq<Digit>, from: int, to: int, seen: seq<Digit>)
    requires 0 <= from && to <= |draws|
  {
    forall n :: from <= n < to ==> draws[n] in seen
  }

  /** The different digits occurring in s. */
  function Digits(s: seq<Digit>): set<Digit> {
    set x | x in s
  }

  /** A sequence shows at most as many different digits as it is long. */
  lemma {:induction false} DigitsSize(s: seq<Digit>)
    ensures |Digits(s)| <= |s|
  {
    if |s| > 0 {
      DigitsSize(s[1..]);
      assert Digits(s) == {s[0]} + Digits(s[1..]);
    }
  }

  /** ... and exactly as many when no digit repeats. */
  lemma {:induction false} DistinctDigits(s: seq<Digit>)
    requires Distinct(s)
    ensures |Digits(s)| == |s|
  {
    if |s| > 0 {
      DistinctDigits(s[1..]);
      assert Digits(s) == {s[0]} + Digits(s[1..]);
      assert s[0] !in Digits(s[1..]);
    }
  }

  /** A subset is no larger than its superset. */
  lemma {:induction false} SubsetSize(a: set<Digit>, b: set<Digit>)
    requires a <= b
    ensures |a| <= |b|
    decreases a
  {
    if a != {} {
      var x :| x in a;
      SubsetSize(a - {x}, b - {x});
    }
  }

  /** When every draw from position `from` on repeats a digit of `seen`,
      those draws show at most |seen| different digits. */
  lemma RejectedDigits(draws: seq<Digit>, from: nat, seen: seq<Digit>)
    requires from <= |draws| && Rejected(draws, from, |draws|, seen)
    ensures |Digits(draws[from..])| <= |seen|
  {
    forall x | x in Digits(draws[from..]) ensures x in Digits(seen) {
      var k :| 0 <= k < |draws| - from && draws[from..][k] == x;
      assert draws[from + k] in seen;
    }
    SubsetSize(Digits(draws[from..]), Digits(seen));
    DigitsSize(seen);
  }

  /** The inner `while` of the non-Daily Easy/Hard loop: position i is
      redrawn from the stream, starting at `next`, until its digit does not
      occur before it.  The digit it gets is the first draw that is fresh;
      None when the stream runs out with every remaining draw a repeat. */
  method Redraw(answer: Code, i: nat, draws: seq<Digit>, next: nat) returns (r: Option<Code>, next': nat)
    requires i < CodeLength && next <= |draws|
    ensures next <= next' <= |draws|
    ensures r.Some? ==> r.value[i] !in answer[..i]
    ensures r.Some? ==> forall k :: 0 <= k < CodeLength && k != i ==> r.value[k] == answer[k]
    ensures answer[i] !in answer[..i] ==> r == Some(answer) && next' == next
    ensures r.Some? && answer[i] in answer[..i] ==>
      next < next' && r.value[i] == draws[next' - 1] && Rejected(draws, next, next' - 1, answer[..i])
    ensures r.None? ==> answer[i] in answer[..i] && next' == |draws| && Rejected(draws, next, |draws|, answer[..i])
  {
    var cur := answer;
    next' := next;
    if answer[i] !in answer[..i] {
      return Some(answer), next';
    }
    IndexOfFirst(cur, i);
    while IndexOf(cur, cur[i]) != i
      invariant next <= next' <= |draws|
      invariant forall k :: 0 <= k < CodeLength && k != i ==> cur[k] == answer[k]
      invariant cur[..i] == answer[..i]
      invariant next == next' ==> cur[i] == answer[i]
      invariant next < next' ==> cur[i] == draws[next' - 1] && Rejected(draws, next, next' - 1, answer[..i])
      decreases |draws| - next'
    {
      IndexOfFirst(cur, i);
      if next' == |draws| {
        return None, next';
      }
      cur := cur[i := draws[next']];
      assert cur[..i] == answer[..i];
      next' := next' + 1;
    }
    IndexOfFirst(cur, i);
    return Some(cur), next';
  }

  /** The outer loop's invariant after positions before i are handled: they
      hold distinct digits, each kept as drawn unless it repeated an earlier
      one, and the later positions are still the first draws.  An initial
      draw without repeats is never touched. */
  predicate Deduped(draws: seq<Digit>, answer: Code, i: nat)
    requires CodeLength <= |draws|
  {
    && i <= CodeLength
    && Distinct(answer[..i])
    && (forall k :: i <= k < CodeLength ==> answer[k] == draws[k])
    && (forall k :: 0 <= k < i && draws[k] !in answer[..k] ==> answer[k] == draws[k])
    && (Distinct(draws[..CodeLength]) ==> answer == draws[..CodeLength])
  }

  /** One iteration of the outer loop, for position i. */
  method DedupStep(draws: seq<Digit>, answer: Code, i: nat, next: nat) returns (r: Option<Code>, next': nat)
    requires CodeLength <= |draws| && next <= |draws| && i < CodeLength
    requires Deduped(draws, answer, i)
    ensures next <= next' <= |draws|
    ensures r.Some? ==> Deduped(draws, r.value, i + 1)
    ensures Distinct(draws[..CodeLength]) ==> r.Some?
    ensures answer[i] !in answer[..i] ==> r == Some(answer) && next' == next
    ensures r.Some? && answer[i] in answer[..i] ==>
      next < next' && r.value[i] == draws[next' - 1] && Rejected(draws, next, next' - 1, answer[..i])
    ensures r.None? ==> next' == |draws| && Rejected(draws, next, |draws|, answer[..i])
    ensures r.Some? ==> r.value[..i] == answer[..i]
    ensures CodeLength <= next && Rejected(draws, CodeLength, next, answer[..i]) ==>
      if r.Some? then Rejected(draws, CodeLength, next', r.value[..i + 1])
      else Rejected(draws, CodeLength, |draws|, answer[..i])
  {
    r, next' := Redraw(answer, i, draws, next);
    if r.Some? {
      var redrawn := r.value;
      assert redrawn[..i] == answer[..i];
      assert redrawn[..i + 1] == answer[..i] + [redrawn[i]];
      assert forall k :: 0 <= k < i ==> redrawn[..k] == answer[..k];
    }
  }

  /** Each of the first i positions holds its own draw or one of the
      later draws taken so far (those before `used`). */
  predicate FromStream(draws: seq<Digit>, answer: Code, i: nat, used: nat)
    requires CodeLength <= |draws| && used <= |draws| && i <= CodeLength
  {
    forall k :: 0 <= k < i ==>
      answer[k] == draws[k] || exists n :: CodeLength <= n < used && answer[k] == draws[n]
  }

  /** One outer iteration keeps every digit drawn from the stream. */
  lemma FromStreamStep(draws: seq<Digit>, answer: Code, redrawn: Code, i: nat, next: nat, next': nat)
    requires CodeLength <= next <= next' <= |draws| && i < CodeLength
    requires FromStream(draws, answer, i, next) && answer[i] == draws[i]
    requires redrawn[..i] == answer[..i]
    requires redrawn[i] == answer[i] || (next < next' && redrawn[i] == draws[next' - 1])
    ensures FromStream(draws, redrawn, i + 1, next')
  {
    forall k | 0 <= k < i + 1
      ensures redrawn[k] == draws[k] || exists n :: CodeLength <= n < next' && redrawn[k] == draws[n]
    {
      if k < i {
        assert redrawn[k] == answer[k];
        if answer[k] != draws[k] {
          var n :| CodeLength <= n < next && answer[k] == draws[n];
          assert CodeLength <= n < next' && redrawn[k] == draws[n];
        }
      } else if redrawn[i] != answer[i] {
        assert CodeLength <= next' - 1 < next' && redrawn[k] == draws[next' - 1];
      }
    }
  }

  /** The non-Daily branch of `generateAnswer`.  `draws` stands for the
      successive values of `Math.floor(Math.random() * 10)`: the first four
      form the initial answer; when `unique` (Easy, Hard) every position
      whose digit already occurs earlier is redrawn until it does not.
      `used` counts the draws taken.  The result is None only when the
      stream runs out: too short for an answer, or while a redraw was
      needed. */
  method RandomAnswer(unique: bool, draws: seq<Digit>) returns (r: Option<Code>, used: nat)
    ensures used <= |draws|
    ensures |draws| < CodeLength ==> r == None
    ensures !unique && CodeLength <= |draws| ==> r.Some? && r.value == draws[..CodeLength] && used == CodeLength
    ensures CodeLength <= |draws| && Distinct(draws[..CodeLength]) ==>
      r.Some? && r.value == draws[..CodeLength] && used == CodeLength
    ensures unique && r.Some? ==> Distinct(r.value)
    ensures r.Some? ==> CodeLength <= used
    ensures r.Some? ==> forall i :: 0 <= i < CodeLength && draws[i] !in r.value[..i] ==> r.value[i] == draws[i]
    ensures r.None? ==> used == |draws|
    ensures r.None? && CodeLength <= |draws| ==> unique && !Distinct(draws[..CodeLength])
    ensures r.None? && CodeLength <= |draws| ==> |Digits(draws[CodeLength..])| < CodeLength
    ensures unique && 2 * CodeLength <= |draws| && Distinct(draws[CodeLength..]) ==> r.Some?
    ensures r.Some? ==> FromStream(draws, r.value, CodeLength, used)
    ensures unique && r.Some? ==> forall k :: 0 <= k < CodeLength && draws[k] in r.value[..k] ==>
      exists n :: CodeLength <= n < used && r.value[k] == draws[n]
  {
    if |draws| < CodeLength {
      return None, |draws|;
    }
    var answer: Code := draws[..CodeLength];
    if !unique {
      return Some(answer), CodeLength;
    }
    used := CodeLength;
    var i := 0;
    while i < CodeLength
      invariant 0 <= i <= CodeLength && CodeLength <= used <= |draws|
      invariant Deduped(draws, answer, i)
      invariant Distinct(draws[..CodeLength]) ==> used == CodeLength
      invariant Rejected(draws, CodeLength, used, answer[..i])
      invariant FromStream(draws, answer, i, used)
    {
      var step;
      ghost var before := used;
      step, used := DedupStep(draws, answer, i, used);
      if step.None? {
        RejectedDigits(draws, CodeLength, answer[..i]);
        if Distinct(draws[CodeLength..]) {
          DistinctDigits(draws[CodeLength..]);
        }
        return None, used;
      }
      FromStreamStep(draws, answer, step.value, i, before, used);
      answer := step.value;
      i := i + 1;
    }
    assert answer[..CodeLength] == answer;
    assert forall k :: 0 <= k < CodeLength && draws[k] in answer[..k] ==> answer[k] != draws[k];
    return Some(answer), used;
  }

}

=== FILE: scoring.dfy ===
/** Guess marking (`markGuess` in src/core/game.tsx).

    `Score` is a reference definition that says, position by position, what
    mark a guess earns, in terms of counts alone.  `MarkGuess` is the source's
    two-pass algorithm over an answer copy whose slots get consumed, and it is
    proved to compute exactly `Score`. */
module Scoring {
  import opened Common

  /** Feedback for one position; the source encodes these as 1, 2 and 3. */
  datatype Mark = Exact | Present | Absent

  /** Every position is an exact match: the winning mark. */
  predicate AllExact(m: seq<Mark>) {
    forall i :: 0 <= i < |m| ==> m[i] == Exact
  }

  /** Number of positions k < i that are exact matches holding the digit v. */
  function ExactHits(g: seq<Digit>, a: seq<Digit>, i: nat, v: Digit): nat
    requires |g| == |a| && i <= |g|
  {
    if i == 0 then 0
    else ExactHits(g, a, i - 1, v) + (if g[i - 1] == a[i - 1] && g[i - 1] == v then 1 else 0)
  }

  /** Number of non-exact positions k < i whose GUESS digit is v. */
  function GuessMisses(g: seq<Digit>, a: seq<Digit>, i: nat, v: Digit): nat
    requires |g| == |a| && i <= |g|
  {
    if i == 0 then 0
    else GuessMisses(g, a, i - 1, v) + (if g[i - 1] != a[i - 1] && g[i - 1] == v then 1 else 0)
  }

  /** Number of non-exact positions k < j whose ANSWER digit is v. */
  function AnswerMisses(g: seq<Digit>, a: seq<Digit>, j: nat, v: Digit): nat
    requires |g| == |a| && j <= |a|
  {
    if j == 0 then 0
    else AnswerMisses(g, a, j - 1, v) + (if g[j - 1] != a[j - 1] && a[j - 1] == v then 1 else 0)
  }

  function Min(x: int, y: int): int {
    if x <= y then x else y
  }

  /** Reference mark of position i: exact on a positional match; otherwise
      present exactly when fewer earlier non-exact positions hold the same
      digit than there are non-exact answer slots holding it. */
  function MarkAt(g: seq<Digit>, a: seq<Digit>, i: nat): Mark
    requires |g| == |a| && i < |g|
  {
    if g[i] == a[i] then Exact
    else if GuessMisses(g, a, i, g[i]) < AnswerMisses(g, a, |a|, g[i]) then Present
    else Absent
  }

  /** The mark a guess earns against an answer. */
  function Score(g: seq<Digit>, a: seq<Digit>): (m: seq<Mark>)
    requires |g| == |a|
    ensures |m| == |g|
    ensures forall i :: 0 <= i < |g| ==> (m[i] == Exact <==> g[i] == a[i])
  {
    seq(|g|, i requires 0 <= i < |g| => MarkAt(g, a, i))
  }

  /** The guess digits at positions k < i that earned an Exact or a Present
      mark, in position order. */
  function CreditedUpTo(g: seq<Digit>, m: seq<Mark>, i: nat): seq<Digit>
    requires |g| == |m| && i <= |g|
  {
    if i == 0 then []
    else CreditedUpTo(g, m, i - 1) + (if m[i - 1] != Absent then [g[i - 1]] else [])
  }

  /** The guess digits that earned an Exact or a Present mark. */
  function Credited(g: seq<Digit>, m: seq<Mark>): seq<Digit>
    requires |g| == |m|
  {
    CreditedUpTo(g, m, |g|)
  }

  // ---------------------------------------------------------------------
  // Counting facts about the reference definition

  lemma {:induction false} GuessCount(g: seq<Digit>, a: seq<Digit>, i: nat, v: Digit)
    requires |g| == |a| && i <= |g|
    ensures multiset(g[..i])[v] == ExactHits(g, a, i, v) + GuessMisses(g, a, i, v)
  {
    if i > 0 {
      GuessCount(g, a, i - 1, v);
      assert g[..i] == g[..i - 1] + [g[i - 1]];
    }
  }

  lemma {:induction false} AnswerCount(g: seq<Digit>, a: seq<Digit>, j: nat, v: Digit)
    requires |g| == |a| && j <= |a|
    ensures multiset(a[..j])[v] == ExactHits(g, a, j, v) + AnswerMisses(g, a, j, v)
  {
    if j > 0 {
      AnswerCount(g, a, j - 1, v);
      assert a[..j] == a[..j - 1] + [a[j - 1]];
    }
  }

  /** One position's contribution to the credited count of v. */
  lemma CreditedCountStep(g: seq<Digit>, a: seq<Digit>, m: seq<Mark>, i: nat, v: Digit)
    requires |g| == |a| == |m| && 0 < i <= |g|
    requires m[i - 1] == MarkAt(g, a, i - 1)
    requires multiset(CreditedUpTo(g, m, i - 1))[v]
          == ExactHits(g, a, i - 1, v) + Min(GuessMisses(g, a, i - 1, v), AnswerMisses(g, a, |a|, v))
    ensures multiset(CreditedUpTo(g, m, i))[v]
         == ExactHits(g, a, i, v) + Min(GuessMisses(g, a, i, v), AnswerMisses(g, a, |a|, v))
  {
    var x, y := GuessMisses(g, a, i - 1, v), AnswerMisses(g, a, |a|, v);
    var tail := if m[i - 1] != Absent then [g[i - 1]] else [];
    assert multiset(CreditedUpTo(g, m, i))[v] == multiset(CreditedUpTo(g, m, i - 1))[v] + multiset(tail)[v];
    if g[i - 1] != a[i - 1] && g[i - 1] == v {
      assert m[i - 1] != Absent <==> x < y;
    }
  }

  lemma {:induction false} CreditedCount(g: seq<Digit>, a: seq<Digit>, m: seq<Mark>, i: nat, v: Digit)
    requires |g| == |a| == |m| && i <= |g|
    requires forall k :: 0 <= k < |m| ==> m[k] == MarkAt(g, a, k)
    ensures multiset(CreditedUpTo(g, m, i))[v]
         == ExactHits(g, a, i, v) + Min(GuessMisses(g, a, i, v), AnswerMisses(g, a, |a|, v))
  {
    if i > 0 {
      CreditedCount(g, a, m, i - 1, v);
      CreditedCountStep(g, a, m, i, v);
    }
  }

  /** Exact Mastermind semantics: the digits credited by the marks form
      precisely the multiset intersection of guess and answer, so no digit
      value is credited more often than it occurs in the answer (or in the
      guess), and no available match is missed. */
  lemma ScoreCredits(g: seq<Digit>, a: seq<Digit>)
    requires |g| == |a|
    ensures multiset(Credited(g, Score(g, a))) == multiset(g) * multiset(a)
  {
    var m := Score(g, a);
    assert g[..|g|] == g;
    assert a[..|a|] == a;
    forall v: Digit
      ensures multiset(Credited(g, m))[v] == (multiset(g) * multiset(a))[v]
    {
      CreditedCount(g, a, m, |g|, v);
      GuessCount(g, a, |g|, v);
      AnswerCount(g, a, |a|, v);
    }
  }

  /** For every digit v, the positions holding v that are marked Exact or
      Present are at most as many as the occurrences of v in the answer. */
  lemma NoOverCount(g: seq<Digit>, a: seq<Digit>, v: Digit)
    requires |g| == |a|
    ensures multiset(Credited(g, Score(g, a)))[v] <= multiset(a)[v]
  {
    ScoreCredits(g, a);
  }

  /** A guess earns the winning mark exactly when it is the answer. */
  lemma WinIffAnswer(g: seq<Digit>, a: seq<Digit>)
    requires |g| == |a|
    ensures AllExact(Score(g, a)) <==> g == a
  {
    var m := Score(g, a);
    if AllExact(m) {
      forall i | 0 <= i < |g| ensures g[i] == a[i] {
        assert m[i] == Exact;
      }
    }
  }

  /** Worked examples: the reversal [4,3,2,1] of [1,2,3,4] is all Present;
      repeated guess digits beyond the answer's supply are Absent; the
      answer itself is all Exact. */
  lemma ScoreExamples()
    ensures Score([4, 3, 2, 1], [1, 2, 3, 4]) == [Present, Present, Present, Present]
    ensures Score([1, 1, 1, 1], [1, 1, 2, 3]) == [Exact, Exact, Absent, Absent]
    ensures Score([5, 6, 7, 8], [5, 6, 7, 8]) == [Exact, Exact, Exact, Exact]
  {
  }

  // ---------------------------------------------------------------------
  // The two-pass algorithm

  /** After pass 2 has handled the positions before i, answer slot j is
      consumed: by its own exact match, or by an earlier guess position of
      the same digit (slots of one digit are handed out left to right). */
  predicate Consumed(g: seq<Digit>, a: seq<Digit>, i: nat, j: nat)
    requires |g| == |a| && i <= |g| && j < |a|
  {
    g[j] == a[j] || AnswerMisses(g, a, j, a[j]) < GuessMisses(g, a, i, a[j])
  }

  /** The answer copy (`Some(d)`: slot still available, `None`: consumed)
      as it stands once pass 2 has handled the positions before i. */
  predicate CopyAt(g: seq<Digit>, a: seq<Digit>, copy: seq<Option<Digit>>, i: nat)
    requires |g| == |a| && i <= |g|
  {
    && |copy| == |a|
    && forall j :: 0 <= j < |a| ==> copy[j] == (if Consumed(g, a, i, j) then None else Some(a[j]))
  }

  /** The mark pass 1 leaves at position k. */
  function FirstMark(g: seq<Digit>, a: seq<Digit>, k: nat): Mark
    requires |g| == |a| && k < |g|
  {
    if g[k] == a[k] then Exact else Absent
  }

  /** State of pass 2 once it has handled the positions before i: those
      carry their final mark, the others still carry pass 1's. */
  predicate Pass2(g: seq<Digit>, a: seq<Digit>, mark: seq<Mark>, copy: seq<Option<Digit>>, i: nat)
    requires |g| == |a| && i <= |g|
  {
    && CopyAt(g, a, copy, i)
    && |mark| == |g|
    && (forall k :: 0 <= k < i ==> mark[k] == MarkAt(g, a, k))
    && (forall k :: i <= k < |g| ==> mark[k] == FirstMark(g, a, k))
  }

  lemma {:induction false} AnswerMissesMono(g: seq<Digit>, a: seq<Digit>, j1: nat, j2: nat, v: Digit)
    requires |g| == |a| && j1 <= j2 <= |a|
    ensures AnswerMisses(g, a, j1, v) <= AnswerMisses(g, a, j2, v)
    decreases j2
  {
    if j1 < j2 {
      AnswerMissesMono(g, a, j1, j2 - 1, v);
    }
  }

  /** Every rank below the total is the rank of some non-exact answer slot. */
  lemma {:induction false} AnswerMissesReach(g: seq<Digit>, a: seq<Digit>, m: nat, c: nat, v: Digit)
    requires |g| == |a| && m <= |a|
    requires c < AnswerMisses(g, a, m, v)
    ensures exists j :: 0 <= j < m && g[j] != a[j] && a[j] == v && AnswerMisses(g, a, j, v) == c
  {
    if c < AnswerMisses(g, a, m - 1, v) {
      AnswerMissesReach(g, a, m - 1, c, v);
    } else {
      assert g[m - 1] != a[m - 1] && a[m - 1] == v && AnswerMisses(g, a, m - 1, v) == c;
    }
  }

  lemma StepExact(g: seq<Digit>, a: seq<Digit>, copy: seq<Option<Digit>>, i: nat)
    requires |g| == |a| && i < |g| && g[i] == a[i]
    requires CopyAt(g, a, copy, i)
    ensures CopyAt(g, a, copy, i + 1)
  {
  }

  /** The first available copy slot holding v is the non-exact answer slot
      whose rank among v's non-exact slots equals the number of earlier
      non-exact guess positions holding v. */
  lemma FirstFreeRank(g: seq<Digit>, a: seq<Digit>, copy: seq<Option<Digit>>, i: nat, j: nat)
    requires |g| == |a| && i < |g| && g[i] != a[i]
    requires CopyAt(g, a, copy, i)
    requires j < |copy| && copy[j] == Some(g[i])
    requires forall k :: 0 <= k < j ==> copy[k] != Some(g[i])
    ensures g[j] != a[j] && a[j] == g[i]
    ensures AnswerMisses(g, a, j, g[i]) == GuessMisses(g, a, i, g[i])
    ensures GuessMisses(g, a, i, g[i]) < AnswerMisses(g, a, |a|, g[i])
  {
    var v, c := g[i], GuessMisses(g, a, i, g[i]);
    assert !Consumed(g, a, i, j);
    AnswerMissesMono(g, a, j + 1, |a|, v);
    AnswerMissesReach(g, a, |a|, c, v);
    var js :| 0 <= js < |a| && g[js] != a[js] && a[js] == v && AnswerMisses(g, a, js, v) == c;
    assert !Consumed(g, a, i, js);
    if j < js {
      AnswerMissesMono(g, a, j + 1, js, v);
    }
  }

  /** One slot of the copy after position i took slot j. */
  lemma StepTakenAt(g: seq<Digit>, a: seq<Digit>, copy: seq<Option<Digit>>, i: nat, j: nat, k: nat)
    requires |g| == |a| && i < |g| && g[i] != a[i]
    requires |copy| == |a| && j < |a| && k < |a|
    requires g[j] != a[j] && a[j] == g[i]
    requires AnswerMisses(g, a, j, g[i]) == GuessMisses(g, a, i, g[i])
    requires copy[k] == (if Consumed(g, a, i, k) then None else Some(a[k]))
    ensures copy[j := None][k] == (if Consumed(g, a, i + 1, k) then None else Some(a[k]))
  {
    var v := g[i];
    assert GuessMisses(g, a, i + 1, a[k]) == GuessMisses(g, a, i, a[k]) + (if a[k] == v then 1 else 0);
    if a[k] == v && k < j {
      AnswerMissesMono(g, a, k + 1, j, v);
    } else if a[k] == v && j < k {
      AnswerMissesMono(g, a, j + 1, k, v);
    }
  }

  lemma StepTaken(g: seq<Digit>, a: seq<Digit>, copy: seq<Option<Digit>>, i: nat, j: nat)
    requires |g| == |a| && i < |g| && g[i] != a[i]
    requires CopyAt(g, a, copy, i)
    requires j < |copy| && copy[j] == Some(g[i])
    requires forall k :: 0 <= k < j ==> copy[k] != Some(g[i])
    ensures GuessMisses(g, a, i, g[i]) < AnswerMisses(g, a, |a|, g[i])
    ensures CopyAt(g, a, copy[j := None], i + 1)
  {
    FirstFreeRank(g, a, copy, i, j);
    forall k | 0 <= k < |a|
      ensures copy[j := None][k] == (if Consumed(g, a, i + 1, k) then None else Some(a[k]))
    {
      StepTakenAt(g, a, copy, i, j, k);
    }
  }

  lemma StepNone(g: seq<Digit>, a: seq<Digit>, copy: seq<Option<Digit>>, i: nat)
    requires |g| == |a| && i < |g| && g[i] != a[i]
    requires CopyAt(g, a, copy, i)
    requires forall k :: 0 <= k < |copy| ==> copy[k] != Some(g[i])
    ensures AnswerMisses(g, a, |a|, g[i]) <= GuessMisses(g, a, i, g[i])
    ensures CopyAt(g, a, copy, i + 1)
  {
    var v, c := g[i], GuessMisses(g, a, i, g[i]);
    if c < AnswerMisses(g, a, |a|, v) {
      AnswerMissesReach(g, a, |a|, c, v);
      assert false;
    }
    forall k | 0 <= k < |a|
      ensures copy[k] == (if Consumed(g, a, i + 1, k) then None else Some(a[k]))
    {
      AnswerMissesMono(g, a, k + 1, |a|, v);
    }
  }

  lemma Pass2Exact(g: seq<Digit>, a: seq<Digit>, mark: seq<Mark>, copy: seq<Option<Digit>>, i: nat)
    requires |g| == |a| && i < |g| && Pass2(g, a, mark, copy, i) && mark[i] == Exact
    ensures Pass2(g, a, mark, copy, i + 1)
  {
    StepExact(g, a, copy, i);
  }

  lemma Pass2Taken(g: seq<Digit>, a: seq<Digit>, mark: seq<Mark>, copy: seq<Option<Digit>>, i: nat, j: nat)
    requires |g| == |a| && i < |g| && Pass2(g, a, mark, copy, i) && mark[i] != Exact
    requires j < |copy| && copy[j] == Some(g[i])
    requires forall k :: 0 <= k < j ==> copy[k] != Some(g[i])
    ensures Pass2(g, a, mark[i := Present], copy[j := None], i + 1)
  {
    StepTaken(g, a, copy, i, j);
  }

  lemma Pass2None(g: seq<Digit>, a: seq<Digit>, mark: seq<Mark>, copy: seq<Option<Digit>>, i: nat)
    requires |g| == |a| && i < |g| && Pass2(g, a, mark, copy, i) && mark[i] != Exact
    requires forall k :: 0 <= k < |copy| ==> copy[k] != Some(g[i])
    ensures Pass2(g, a, mark, copy, i + 1)
  {
    StepNone(g, a, copy, i);
  }

  lemma Pass2Done(g: seq<Digit>, a: seq<Digit>, mark: seq<Mark>, copy: seq<Option<Digit>>, i: nat)
    requires |g| == |a| && i == |g| && Pass2(g, a, mark, copy, i)
    ensures mark == Score(g, a)
  {
  }

  /** Pass 2's inner scan: the first answer-copy slot still holding v, or -1. */
  method FindFree(v: Digit, copy: seq<Option<Digit>>) returns (j: int)
    ensures -1 <= j < |copy|
    ensures 0 <= j ==> copy[j] == Some(v) && forall k :: 0 <= k < j ==> copy[k] != Some(v)
    ensures j == -1 ==> forall k :: 0 <= k < |copy| ==> copy[k] != Some(v)
  {
    j := 0;
    while j < |copy|
      invariant 0 <= j <= |copy|
      invariant forall k :: 0 <= k < j ==> copy[k] != Some(v)
    {
      if copy[j] == Some(v) {
        return;
      }
      j := j + 1;
    }
    j := -1;
  }

  /** Pass 1 of `markGuess`: exact matches are marked and their answer slots
      consumed; every other position is provisionally Absent. */
  method FirstPass(guess: seq<Digit>, answer: seq<Digit>) returns (mark: seq<Mark>, copy: seq<Option<Digit>>)
    requires |guess| == |answer|
    ensures Pass2(guess, answer, mark, copy, 0)
  {
    var n := |guess|;
    copy := seq(n, j requires 0 <= j < n => Some(answer[j]));
    mark := [];
    var i := 0;
    while i < n
      invariant 0 <= i <= n && |mark| == i && |copy| == n
      invariant forall k :: 0 <= k < i ==> mark[k] == FirstMark(guess, answer, k)
      invariant forall j :: 0 <= j < n ==>
        copy[j] == (if j < i && guess[j] == answer[j] then None else Some(answer[j]))
    {
      if guess[i] == answer[i] {
        mark := mark + [Exact];
        copy := copy[i := None];
      } else {
        mark := mark + [Absent];
      }
      i := i + 1;
    }
  }

  /** One iteration of pass 2, for position i. */
  method SecondPassStep(guess: seq<Digit>, answer: seq<Digit>, mark: seq<Mark>, copy: seq<Option<Digit>>, i: nat)
    returns (mark': seq<Mark>, copy': seq<Option<Digit>>)
    requires |guess| == |answer| && i < |guess|
    requires Pass2(guess, answer, mark, copy, i)
    ensures Pass2(guess, answer, mark', copy', i + 1)
  {
    mark', copy' := mark, copy;
    if mark[i] != Exact {
      var j := FindFree(guess[i], copy);
      if j >= 0 {
        Pass2Taken(guess, answer, mark, copy, i, j);
        mark' := mark[i := Present];
        copy' := copy[j := None];
      } else {
        Pass2None(guess, answer, mark, copy, i);
      }
    } else {
      Pass2Exact(guess, answer, mark, copy, i);
    }
  }

  /** Pass 2 of `markGuess`: each position not marked Exact takes the first
      unconsumed equal answer slot and becomes Present, or stays Absent. */
  method SecondPass(guess: seq<Digit>, answer: seq<Digit>, mark0: seq<Mark>, copy0: seq<Option<Digit>>)
    returns (mark: seq<Mark>)
    requires |guess| == |answer|
    requires Pass2(guess, answer, mark0, copy0, 0)
    ensures mark == Score(guess, answer)
  {
    var copy := copy0;
    mark := mark0;
    var i := 0;
    while i < |guess|
      invariant 0 <= i <= |guess|
      invariant Pass2(guess, answer, mark, copy, i)
    {
      mark, copy := SecondPassStep(guess, answer, mark, copy, i);
      i := i + 1;
    }
    Pass2Done(guess, answer, mark, copy, i);
  }

  /** `markGuess`: the two passes in sequence.  The result is the reference
      mark, so it inherits every property proved of `Score`. */
  method MarkGuess(guess: seq<Digit>, answer: seq<Digit>) returns (mark: seq<Mark>)
    requires |guess| == |answer|
    ensures mark == Score(guess, answer)
  {
    var mark0, copy0 := FirstPass(guess, answer);
    mark := SecondPass(guess, answer, mark0, copy0);
  }
}

=== FILE: session.dfy ===
/** The game session of src/core/game.tsx: the state held by the `Game`
    component, the key handler `handleKeyPress` and `reset`.

    Each key press is a pure `Session -> Session` function.  `Valid`
    collects the invariants of every reachable session; `Reset` establishes
    it and `HandleKey` preserves it. */
module Session {
  import opened Common
  import opened Scoring
  import opened GuessBuffer

  /** A submitted guess together with its mark. */
  datatype Record = Record(guess: seq<Digit>, mark: seq<Mark>)

  /** The transient message line (`messageText`). */
  datatype Message =
    | NoMessage
    | PressEnterToSubmit
    | NumberAlreadyUsed
    | GuessAlreadyMade
    | PlayerTwoGuess
    | PlayerOneSet

  /** The keys the handler reacts to; every other key only clears the message. */
  datatype Key = DigitKey(d: Digit) | Backspace | Enter | OtherKey

  /** `answerSet` is the source's `multiplayerSetNumber`. */
  datatype Session = Session(
    mode: Mode,
    difficulty: Difficulty,
    answer: Code,
    history: seq<Record>,
    buffer: Buffer,
    hasWon: bool,
    answerSet: bool,
    message: Message)

  /** Some earlier record holds the guess g. */
  predicate AlreadyGuessed(h: seq<Record>, g: seq<Digit>) {
    exists i :: 0 <= i < |h| && h[i].guess == g
  }

  /** Every record holds a four-digit guess with the mark `markGuess` gives
      it against the answer; no guess is recorded twice; under Easy and Hard
      no recorded guess repeats a digit. */
  predicate HistoryValid(h: seq<Record>, answer: Code, difficulty: Difficulty) {
    && (forall i :: 0 <= i < |h| ==> |h[i].guess| == CodeLength && h[i].mark == Score(h[i].guess, answer))
    && (forall i, j :: 0 <= i < j < |h| ==> h[i].guess != h[j].guess)
    && (UniqueDigits(difficulty) ==> forall i :: 0 <= i < |h| ==> Distinct(h[i].guess))
  }

  /** Invariants of every session reachable from `Reset` by key presses. */
  predicate Valid(s: Session) {
    && WellFormed(s.buffer)
    && (UniqueDigits(s.difficulty) ==> Distinct(Entered(s.buffer)))
    && HistoryValid(s.history, s.answer, s.difficulty)
    && (s.hasWon <==> AlreadyGuessed(s.history, s.answer))
    && (s.mode == Multiplayer && !s.answerSet ==> s.history == [])
    && (s.mode == Multiplayer && s.answerSet && UniqueDigits(s.difficulty) ==> Distinct(s.answer))
  }

  // ---------------------------------------------------------------------
  // Transitions

  /** `reset`, run at start-up, on a mode or difficulty change and by
      "Play Again": a fresh answer, no guesses, the initial buffer; in
      Multiplayer, player 1 is asked to set the number.  Outside Multiplayer
      the answer-set flag is left as it was. */
  function Reset(s: Session, mode: Mode, difficulty: Difficulty, answer: Code): (r: Session)
    ensures Valid(r)
    ensures r.answer == answer && r.history == [] && r.buffer == Initial && !r.hasWon
    ensures r.mode == mode && r.difficulty == difficulty
    ensures mode == Multiplayer ==> !r.answerSet && r.message == PlayerOneSet
    ensures mode != Multiplayer ==> r.answerSet == s.answerSet && r.message == NoMessage
  {
    InitialEmpty();
    Session(mode, difficulty, answer, [], Initial, false,
            if mode == Multiplayer then false else s.answerSet,
            if mode == Multiplayer then PlayerOneSet else NoMessage)
  }

  /** A digit key: only the buffer and the message may change, and on a
      well-formed buffer the digit is either refused or appended. */
  function PressDigit(s: Session, d: Digit): (r: Session)
    ensures r == s.(buffer := r.buffer, message := r.message)
    ensures WellFormed(s.buffer) ==>
      WellFormed(r.buffer) && (r.buffer == s.buffer || Entered(r.buffer) == Entered(s.buffer) + [d])
  {
    var i := CursorIndex(s.buffer);
    if i == -1 then s.(message := PressEnterToSubmit)
    else if UniqueDigits(s.difficulty) && Filled(d) in s.buffer then s.(message := NumberAlreadyUsed)
    else if i == CodeLength - 1 then s.(buffer := Write(s.buffer, d), message := PressEnterToSubmit)
    else s.(buffer := Write(s.buffer, d), message := NoMessage)
  }

  /** Backspace: only the buffer changes (and the message is cleared); on a
      well-formed buffer the last entered digit, if any, is removed. */
  function PressBackspace(s: Session): (r: Session)
    ensures r == s.(buffer := r.buffer, message := NoMessage)
    ensures WellFormed(s.buffer) ==> WellFormed(r.buffer)
    ensures WellFormed(s.buffer) && |Entered(s.buffer)| > 0 ==>
      Entered(r.buffer) == Entered(s.buffer)[..|Entered(s.buffer)| - 1]
  {
    s.(buffer := Erase(s.buffer), message := NoMessage)
  }

  /** Enter: ignored on a buffer that is not full; in Multiplayer the first
      full guess becomes the answer; a repeated guess is refused; otherwise
      the guess is marked and recorded and the buffer cleared. */
  function PressEnter(s: Session): (r: Session)
    requires WellFormed(s.buffer)
    ensures r.mode == s.mode && r.difficulty == s.difficulty && WellFormed(r.buffer)
    ensures r.history == s.history ||
      (|Entered(s.buffer)| == CodeLength &&
       r.history == s.history + [Record(Entered(s.buffer), Score(Entered(s.buffer), s.answer))])
    ensures r.answer != s.answer ==> s.mode == Multiplayer && !s.answerSet && r.answerSet
    ensures s.hasWon ==> r.hasWon
  {
    InitialEmpty();
    if CursorIndex(s.buffer) != -1 then s.(message := NoMessage)
    else
      CursorAfterDigits(s.buffer);
      var g := Entered(s.buffer);
      if s.mode == Multiplayer && !s.answerSet then
        s.(answer := g, answerSet := true, buffer := Initial, message := PlayerTwoGuess)
      else if AlreadyGuessed(s.history, g) then
        s.(message := GuessAlreadyMade)
      else
        var m := Score(g, s.answer);
        s.(history := s.history + [Record(g, m)], hasWon := s.hasWon || AllExact(m),
           buffer := Initial, message := NoMessage)
  }

  /** `handleKeyPress`: mode and difficulty stay, the buffer stays
      well-formed, at most the one entered guess is recorded, and a won
      session stays won. Only Enter touches anything beyond the buffer and
      the message; Enter on a short guess and any key the game does not
      handle only clear the message. */
  function HandleKey(s: Session, k: Key): (r: Session)
    requires WellFormed(s.buffer)
    ensures r.mode == s.mode && r.difficulty == s.difficulty && WellFormed(r.buffer)
    ensures r.history == s.history ||
      (|Entered(s.buffer)| == CodeLength &&
       r.history == s.history + [Record(Entered(s.buffer), Score(Entered(s.buffer), s.answer))])
    ensures s.hasWon ==> r.hasWon
    ensures !k.Enter? ==> r == s.(buffer := r.buffer, message := r.message)
    ensures k.OtherKey? ==> r == s.(message := NoMessage)
    ensures k.Enter? && |Entered(s.buffer)| < CodeLength ==> r == s.(message := NoMessage)
  {
    CursorAfterDigits(s.buffer);
    match k
    case DigitKey(d) => PressDigit(s, d)
    case Backspace => PressBackspace(s)
    case Enter => PressEnter(s)
    case OtherKey => s.(message := NoMessage)
  }

  // ---------------------------------------------------------------------
  // Digit keys

  /** A digit on a full buffer changes nothing but the message. */
  lemma DigitOnFullIgnored(s: Session, d: Digit)
    requires WellFormed(s.buffer) && |Entered(s.buffer)| == CodeLength
    ensures PressDigit(s, d) == s.(message := PressEnterToSubmit)
  {
    CursorAfterDigits(s.buffer);
  }

  /** Under Easy and Hard a digit already in the guess is refused and the
      buffer left as it was. */
  lemma RepeatedDigitRefused(s: Session, d: Digit)
    requires WellFormed(s.buffer) && |Entered(s.buffer)| < CodeLength
    requires UniqueDigits(s.difficulty) && d in Entered(s.buffer)
    ensures PressDigit(s, d) == s.(message := NumberAlreadyUsed)
  {
    CursorAfterDigits(s.buffer);
    FilledIffEntered(s.buffer, d);
  }

  /** Otherwise the digit is appended to the entered digits; nothing else
      but the message changes. */
  lemma DigitAppended(s: Session, d: Digit)
    requires WellFormed(s.buffer) && |Entered(s.buffer)| < CodeLength
    requires !(UniqueDigits(s.difficulty) && d in Entered(s.buffer))
    ensures var r := PressDigit(s, d);
      && WellFormed(r.buffer)
      && Entered(r.buffer) == Entered(s.buffer) + [d]
      && r == s.(buffer := r.buffer, message := r.message)
      && (r.message == PressEnterToSubmit <==> |Entered(r.buffer)| == CodeLength)
  {
    CursorAfterDigits(s.buffer);
    FilledIffEntered(s.buffer, d);
  }

  // ---------------------------------------------------------------------
  // Backspace

  /** Backspace on an empty buffer is a no-op. */
  lemma BackspaceOnEmpty(s: Session)
    requires WellFormed(s.buffer) && Entered(s.buffer) == []
    ensures PressBackspace(s) == s.(message := NoMessage)
  {
  }

  /** Backspace drops the last entered digit and nothing else. */
  lemma BackspaceDropsLast(s: Session)
    requires WellFormed(s.buffer) && |Entered(s.buffer)| > 0
    ensures var r := PressBackspace(s);
      && WellFormed(r.buffer)
      && Entered(r.buffer) == Entered(s.buffer)[..|Entered(s.buffer)| - 1]
      && r == s.(buffer := r.buffer, message := NoMessage)
  {
  }

  /** Backspace right after an accepted digit restores the previous buffer. */
  lemma BackspaceUndoesDigit(s: Session, d: Digit)
    requires WellFormed(s.buffer) && |Entered(s.buffer)| < CodeLength
    requires !(UniqueDigits(s.difficulty) && d in Entered(s.buffer))
    ensures PressBackspace(PressDigit(s, d)) == s.(message := NoMessage)
  {
    CursorAfterDigits(s.buffer);
    FilledIffEntered(s.buffer, d);
    EraseUndoesWrite(s.buffer, d);
  }

  // ---------------------------------------------------------------------
  // Enter

  /** Enter on a buffer that is not full changes nothing but the message. */
  lemma EnterNotFull(s: Session)
    requires WellFormed(s.buffer) && |Entered(s.buffer)| < CodeLength
    ensures PressEnter(s) == s.(message := NoMessage)
  {
    CursorAfterDigits(s.buffer);
  }

  /** In Multiplayer, the first full Enter after a reset makes the buffer the
      answer, records nothing and clears the buffer. */
  lemma MultiplayerSetsAnswer(s: Session)
    requires Valid(s) && |Entered(s.buffer)| == CodeLength
    requires s.mode == Multiplayer && !s.answerSet
    ensures var r := PressEnter(s);
      && r.answer == Entered(s.buffer)
      && r.answerSet
      && r.history == s.history == []
      && r.buffer == Initial
      && !r.hasWon
      && r.message == PlayerTwoGuess
  {
    CursorAfterDigits(s.buffer);
  }

  /** A repeated guess is refused: buffer and history stay as they were. */
  lemma RepeatedGuessRefused(s: Session)
    requires WellFormed(s.buffer) && |Entered(s.buffer)| == CodeLength
    requires s.mode != Multiplayer || s.answerSet
    requires AlreadyGuessed(s.history, Entered(s.buffer))
    ensures PressEnter(s) == s.(message := GuessAlreadyMade)
  {
    CursorAfterDigits(s.buffer);
  }

  /** A new full guess is marked exactly as `markGuess` marks it, appended as
      one record, and the buffer is cleared; the session is won from now on
      iff it was already won or the guess is the answer. */
  lemma NewGuessRecorded(s: Session)
    requires WellFormed(s.buffer) && |Entered(s.buffer)| == CodeLength
    requires s.mode != Multiplayer || s.answerSet
    requires !AlreadyGuessed(s.history, Entered(s.buffer))
    ensures var g := Entered(s.buffer);
      PressEnter(s) == s.(history := s.history + [Record(g, Score(g, s.answer))],
                          hasWon := s.hasWon || g == s.answer,
                          buffer := Initial,
                          message := NoMessage)
  {
    CursorAfterDigits(s.buffer);
    WinIffAnswer(Entered(s.buffer), s.answer);
  }

  /** Submitting the answer wins (whether or not it was guessed before). */
  lemma SubmittingAnswerWins(s: Session)
    requires Valid(s) && Entered(s.buffer) == s.answer
    requires s.mode != Multiplayer || s.answerSet
    ensures PressEnter(s).hasWon
  {
    if !AlreadyGuessed(s.history, s.answer) {
      NewGuessRecorded(s);
    } else {
      RepeatedGuessRefused(s);
    }
  }

  /** The code does not freeze a won session: keys are still handled, but
      the won flag is never cleared except by `Reset`. */
  lemma WonStaysWon(s: Session, k: Key)
    requires WellFormed(s.buffer) && s.hasWon
    ensures HandleKey(s, k).hasWon
  {
  }

  // ---------------------------------------------------------------------
  // The invariant

  lemma AppendRecord(h: seq<Record>, rec: Record, g: seq<Digit>)
    ensures AlreadyGuessed(h + [rec], g) <==> AlreadyGuessed(h, g) || rec.guess == g
  {
    var h' := h + [rec];
    if AlreadyGuessed(h', g) {
      var i :| 0 <= i < |h'| && h'[i].guess == g;
      if i < |h| {
        assert h[i].guess == g;
      }
    }
    if AlreadyGuessed(h, g) {
      var i :| 0 <= i < |h| && h[i].guess == g;
      assert h'[i].guess == g;
    }
    if rec.guess == g {
      assert h'[|h|].guess == g;
    }
  }

  lemma PressDigitValid(s: Session, d: Digit)
    requires Valid(s)
    ensures Valid(PressDigit(s, d))
  {
    var ds := Entered(s.buffer);
    if |ds| == CodeLength {
      DigitOnFullIgnored(s, d);
    } else if UniqueDigits(s.difficulty) && d in ds {
      RepeatedDigitRefused(s, d);
    } else {
      DigitAppended(s, d);
    }
  }

  lemma PressBackspaceValid(s: Session)
    requires Valid(s)
    ensures Valid(PressBackspace(s))
  {
  }

  lemma HistoryAppendValid(h: seq<Record>, answer: Code, difficulty: Difficulty, g: seq<Digit>)
    requires HistoryValid(h, answer, difficulty)
    requires |g| == CodeLength && !AlreadyGuessed(h, g)
    requires UniqueDigits(difficulty) ==> Distinct(g)
    ensures HistoryValid(h + [Record(g, Score(g, answer))], answer, difficulty)
  {
    var h' := h + [Record(g, Score(g, answer))];
    assert forall i :: 0 <= i < |h| ==> h'[i] == h[i];
    forall i, j | 0 <= i < j < |h'| ensures h'[i].guess != h'[j].guess {
      if j == |h| {
        assert h[i].guess != g;
      }
    }
  }

  lemma NewGuessValid(s: Session)
    requires Valid(s) && |Entered(s.buffer)| == CodeLength
    requires s.mode != Multiplayer || s.answerSet
    requires !AlreadyGuessed(s.history, Entered(s.buffer))
    ensures Valid(PressEnter(s))
  {
    var g := Entered(s.buffer);
    InitialEmpty();
    NewGuessRecorded(s);
    AppendRecord(s.history, Record(g, Score(g, s.answer)), s.answer);
    HistoryAppendValid(s.history, s.answer, s.difficulty, g);
  }

  lemma PressEnterValid(s: Session)
    requires Valid(s)
    ensures Valid(PressEnter(s))
  {
    var g := Entered(s.buffer);
    InitialEmpty();
    if |g| < CodeLength {
      EnterNotFull(s);
    } else if s.mode == Multiplayer && !s.answerSet {
      MultiplayerSetsAnswer(s);
    } else if AlreadyGuessed(s.history, g) {
      RepeatedGuessRefused(s);
    } else {
      NewGuessValid(s);
    }
  }

  /** Every key press keeps the session invariants: the buffer shape, digit
      distinctness under Easy and Hard, one record per distinct guess with
      its `markGuess` mark, and "won iff the answer has been guessed". */
  lemma HandleKeyValid(s: Session, k: Key)
    requires Valid(s)
    ensures Valid(HandleKey(s, k))
  {
    match k
    case DigitKey(d) => PressDigitValid(s, d);
    case Backspace => PressBackspaceValid(s);
    case Enter => PressEnterValid(s);
    case OtherKey =>
  }
}

=== FILE: slider.dfy ===
/** `SliderInput` of src/core/ui.tsx: the "<" and ">" buttons step through a
    list of options, wrapping around at both ends.  JavaScript's `undefined`
    (reading outside the list) is `None`. */
module Slider {
  import opened Common

  /** `next`: the option after `value`; after the last option, the first.
      A value that is not an option counts as index -1, so it steps to the
      first option. */
  function Next<T(==)>(options: seq<T>, value: T): (r: Option<T>)
    ensures |options| == 0 ==> r == None
    ensures 0 < |options| ==> r.Some? && r.value in options
    ensures 0 < |options| && value !in options ==> r == Some(options[0])
  {
    var i := IndexOf(options, value);
    if i == |options| - 1 then
      if |options| == 0 then None else Some(options[0])
    else
      Some(options[i + 1])
  }

  /** `prev`: the option before `value`; before the first option, the last.
      For a value that is not an option the source reads index -2, which is
      undefined. */
  function Prev<T(==)>(options: seq<T>, value: T): (r: Option<T>)
    ensures value in options ==> r.Some? && r.value in options
    ensures value !in options ==> r == None
  {
    var i := IndexOf(options, value);
    if i == 0 then Some(options[|options| - 1])
    else if i == -1 then None
    else Some(options[i - 1])
  }

  /** Position `k + 1` of a cycle of length `n`. */
  lemma ModNext(k: int, n: int)
    requires 0 <= k < n
    ensures (k + 1) % n == if k == n - 1 then 0 else k + 1
  {
  }

  /** Position `k - 1` of a cycle of length `n`. */
  lemma ModPrev(k: int, n: int)
    requires 0 <= k < n
    ensures (k + n - 1) % n == if k == 0 then n - 1 else k - 1
  {
  }

  /** With distinct options, `next` moves one place forward cyclically. */
  lemma NextCycles<T>(options: seq<T>, k: int)
    requires Distinct(options) && 0 <= k < |options|
    ensures Next(options, options[k]) == Some(options[(k + 1) % |options|])
  {
    IndexOfDistinct(options, k);
    ModNext(k, |options|);
  }

  /** With distinct options, `prev` moves one place backward cyclically. */
  lemma PrevCycles<T>(options: seq<T>, k: int)
    requires Distinct(options) && 0 <= k < |options|
    ensures Prev(options, options[k]) == Some(options[(k + |options| - 1) % |options|])
  {
    IndexOfDistinct(options, k);
    ModPrev(k, |options|);
  }

  /** `prev` undoes `next` on distinct options. */
  lemma PrevAfterNext<T>(options: seq<T>, value: T)
    requires Distinct(options) && value in options
    ensures Next(options, value).Some? && Prev(options, Next(options, value).value) == Some(value)
  {
    var k :| 0 <= k < |options| && options[k] == value;
    var n := |options|;
    NextCycles(options, k);
    ModNext(k, n);
    var j := (k + 1) % n;
    PrevCycles(options, j);
    ModPrev(j, n);
  }

  /** `next` undoes `prev` on distinct options. */
  lemma NextAfterPrev<T>(options: seq<T>, value: T)
    requires Distinct(options) && value in options
    ensures Prev(options, value).Some? && Next(options, Prev(options, value).value) == Some(value)
  {
    var k :| 0 <= k < |options| && options[k] == value;
    var n := |options|;
    PrevCycles(options, k);
    ModPrev(k, n);
    var j := (k + n - 1) % n;
    NextCycles(options, j);
    ModNext(j, n);
  }

  /** The difficulty selector's options. */
  const DifficultyNames: seq<string> := ["Easy", "Medium", "Hard", "Extreme"]

  /** The difficulty selector cycles Easy, Medium, Hard, Extreme, Easy. */
  lemma DifficultyCycle()
    ensures Next(DifficultyNames, "Easy") == Some("Medium")
    ensures Next(DifficultyNames, "Medium") == Some("Hard")
    ensures Next(DifficultyNames, "Hard") == Some("Extreme")
    ensures Next(DifficultyNames, "Extreme") == Some("Easy")
    ensures Prev(DifficultyNames, "Easy") == Some("Extreme")
  {
    assert Distinct(DifficultyNames);
    NextCycles(DifficultyNames, 0);
    NextCycles(DifficultyNames, 1);
    NextCycles(DifficultyNames, 2);
    NextCycles(DifficultyNames, 3);
    PrevCycles(DifficultyNames, 0);
  }
}
